=== FILE: README.md ===
# retypist mutation engine, modelled in Dafny

retypist is a mutation-testing tool for Rust crates that tries to narrow
visibility modifiers. It parses each source file with `syn` (version 1). A
visitor proposes narrower visibilities for two kinds of keyword: the bare
`pub`, and syn 1's bare `crate`. The keyword sits on one of these (the few
places the item tree does not represent are under "## Left out"):

- a struct, fn or enum that syn's traversal reaches: at the top level, in
  inline modules, in the bodies of impl and trait methods, or in const and
  static initialisers (but not in fn bodies);
- a field of a struct or union.

The visibility of an impl method yields nothing, and so do the `pub(...)`
forms and items declared in a fn body. The source tree samples a random
batch of these candidates. A mutation produces the whole file text with the
keyword's span replaced by the new visibility.

This project models that engine:

- **`Editor`** (`editor.dfy`): positions, spans, the conversions from
  proc_macro2 positions, and the region replacement that `Mutation::mutate`
  relies on. A document's chars are given positions from `(1, 1)`.
- **`Source`** (`source.dfy`): source files, CR LF normalisation on load,
  the path-extension test and loading from a file system given as a map.
- **`Mutations`** (`mutation.dfy`): the operation enum, its replacement
  table and the mutation value.
- **`Visitors`** (`visitor.dfy`): a small item tree standing in for `syn`'s.
  `ops_for_visibility` is a function. The visitor is a class whose
  `mutations` sequence its visit methods extend. Each method is proved to
  append exactly what a specification function of the tree says.
- **`Tree`** (`tree.dfy`): discovering a file's mutations, `SourceTree::new`,
  the `source_files` filter pipeline and the sampling loop of
  `SourceTree::mutation`. The sampling loop is a method with a loop, proved
  to give exactly what the function `Sample` (built from `Rounds`) specifies;
  the properties of the sampling are lemmas about that function.
- **`Wrappers`** (`wrappers.dfy`): `Option` and `Result`.

## Model

| member | source | states |
|---|---|---|
| Editor.FromProcLineColumn | src/editor.rs:15-22 | a converted position keeps the line and has a 1-based column (at least 1) |
| Editor.FromProcSpan | src/editor.rs:35-51 | both span conversions (by value and by reference): the converted span is ordered iff the tokenizer span was |
| Editor.ConversionShiftsColumn | src/editor.rs:15-22 | converting a position keeps the line and adds one to the column, so the result is the documented 1-based column (at least 1) |
| Editor.ConversionPreservesOrder | src/editor.rs:15-22 | the position conversion preserves and reflects strict and non-strict document order, and is injective |
| Editor.SpanConversion | src/editor.rs:35-51 | a converted span (by value or by reference) has the converted start and the converted end, and is well ordered iff the tokenizer span was |
| Editor.Positions | src/editor.rs:5-13 | a document gives one position to each char |
| Editor.PositionsIncrease | src/editor.rs:5-13 | positions strictly increase along the document, so a position names at most one char |
| Editor.LastLf | src/editor.rs:5-13 | the index of the last line break of a text, or -1 when there is none; the char there is a line break |
| Editor.PositionsStep | src/editor.rs:5-13 | each char stands where its predecessor leads: one column further, or column 1 of the next line after a line break |
| Editor.PositionAt | src/editor.rs:5-13 | the i-th char stands on the start line plus the number of line breaks before it; its column counts from the char after the last of those, or from the start column when there is none |
| Editor.MultiLinePositions | src/editor.rs:5-13 | in a document, the i-th char stands on line 1 plus the line breaks before it, at the 1-based column counted from the last of those |
| Editor.FirstAtOrAfter | src/editor.rs:28-33 | the index of the first char at or after a position: every char before it stands strictly before the position, and the char at it stands at or after |
| Editor.FirstAfter | src/editor.rs:28-33 | the index just past an inclusive end: every char before it stands at or before the end, and the char at it stands strictly after |
| Editor.ReplaceFrom | src/editor.rs:28-33 | the char scan that stands for `replace_region`: once the scan is past the inclusive end, it copies the rest of the text unchanged |
| Editor.ReplaceFromSplits | src/editor.rs:28-33 | the char scan keeps everything before the start, inserts the replacement iff a char stands at the start, and keeps everything after the inclusive end |
| Editor.ReplaceRegion | src/editor.rs:28-33 | for an ordered span: the text before the start, then the replacement (when a char stands at the start), then the text after the inclusive end |
| Editor.TokenSpanCoversNextChar | src/editor.rs:15-51 | on a one-line text, the converted span of an n-char token at 0-based column c replaces chars c through c+n, i.e. the token and the char after it |
| Source.DropCarriageReturns | src/source.rs:44-46 | the CR-free view of a text contains no CR |
| Source.NormalizeLineEndings | src/source.rs:44-46 | `replace("\r\n", "\n")` as a left-to-right scan; the loaded text is never longer than the file's |
| Source.NormalizeKeepsOtherChars | src/source.rs:44-46 | normalisation removes only carriage returns: every other char is kept in order |
| Source.NormalizeShortens | src/source.rs:44-46 | normalisation shortens the text iff it contains a CR LF pair |
| Source.NormalizeIdentityIff | src/source.rs:44-46 | normalisation leaves the text unchanged iff it contains no CR LF pair |
| Source.NormalizeWithoutCr | src/source.rs:44-46 | a text without CR is loaded unchanged |
| Source.NormalizeUndoesCrLf | src/source.rs:44-46 | a CR-free text saved with CR LF line endings is loaded back as itself |
| Source.CrCrLfKeepsOnePair | src/source.rs:44-46 | matches do not overlap: CR CR LF loads as CR LF, so a CR LF can remain and normalising is not idempotent |
| Source.LastDot | src/source.rs:99-102 | the index of the last `.` of a file name, or -1 when there is none |
| Source.Extension | src/source.rs:99-102 | `Path::extension`: when present, the file name exists and is longer than the extension |
| Source.ExtensionIsDotFreeTail | src/source.rs:99-102 | a file name has an extension iff it holds a `.` after its first char, and the extension is then the dot-free tail after the last `.` |
| Source.RustFileAdmitted | src/source.rs:88-102 | a path ending in a non-empty stem followed by `.rs` (such as `src/main.rs`) has the extension `rs` and passes the extension test |
| Source.HasRustExtension | src/source.rs:99-102 | the `rs` test, ignoring ASCII case: a path it admits has a two-char extension |
| Source.RustExtensionSpellings | src/source.rs:99-102 | the extension test admits exactly `rs`, `rS`, `Rs` and `RS` |
| Source.Load | src/source.rs:42-51 | `SourceFile::new`: a loaded file carries the joined path, and a failed read reports that path |
| Source.LoadOutcome | src/source.rs:42-51 | loading fails with a read error exactly when the joined path cannot be read; a loaded file has the joined path and every non-CR char of the text |
| Mutations.Replacement | src/mutation.rs:19-31 | the literal table of replacement texts; each text maps back to its operation |
| Mutations.ReplacementPadded | src/mutation.rs:19-31 | every replacement text begins and ends with a space |
| Mutations.ReplacementIdentifiesOp | src/mutation.rs:19-31 | the operation can be recovered from its replacement text, so the four texts are pairwise distinct |
| Mutations.Mutation.New | src/mutation.rs:45-51 | the mutation stores the given file, operation and span unchanged |
| Mutations.Mutation.Mutate | src/mutation.rs:53-61 | the whole file with the operation's replacement standing for the span's region and the text outside the span unchanged; the file value is not altered |
| Mutations.MutateInsertsReplacement | src/mutation.rs:53-61 | when a char stands at the span's start, the mutated text keeps the file's text before it and holds the replacement at its offset |
| Visitors.OpsForVisibility | src/visitor.rs:25-53 | every candidate belongs to the visitor's file and, for a non-restricted visibility, strictly narrows it |
| Visitors.PublicCandidates | src/visitor.rs:27-38 | `pub` yields exactly ToVisCrate, ToVisInherited, ToVisSelf, ToVisSuper, in this order |
| Visitors.CrateCandidates | src/visitor.rs:39-49 | `crate` yields exactly ToVisSelf, ToVisSuper, ToVisInherited, in this order, and never ToVisCrate |
| Visitors.NoCandidates | src/visitor.rs:50-51 | restricted and inherited visibilities yield nothing |
| Visitors.CandidatesAnchored | src/visitor.rs:34-36 | all mutations for one visibility belong to the visitor's file and share the visibility keyword's span |
| Visitors.CandidatesNarrow | src/visitor.rs:25-53 | for a non-restricted visibility, an operation is proposed iff it strictly narrows the visibility |
| Visitors.ItemMutationsBelongToFile | src/visitor.rs:56-94 | every mutation discovered in an item tree belongs to the visited file |
| Visitors.ItemsMutationsBelongToFile | src/visitor.rs:56-94 | every mutation discovered in a list of items belongs to the visited file |
| Visitors.FieldListBelongsToFile | src/visitor.rs:90-93 | every mutation discovered in a list of fields belongs to the visited file |
| Visitors.FieldsBelongToFile | src/visitor.rs:90-93 | every mutation discovered in a struct's fields belongs to the visited file |
| Visitors.Visitor.constructor | src/visitor.rs:17-23 | a fresh visitor holds its file and no mutations |
| Visitors.Visitor.VisitItemStruct | src/visitor.rs:57-61 | appends the struct's visibility mutations, then those of its named and tuple fields, and keeps what was there as a prefix |
| Visitors.Visitor.VisitItemFn | src/visitor.rs:63-66 | appends exactly the fn's visibility mutations and does not recurse |
| Visitors.Visitor.VisitItemEnum | src/visitor.rs:68-74 | appends the enum's visibility mutations; visiting its variants in order adds nothing more |
| Visitors.Visitor.VisitVariant | src/visitor.rs:76-79 | appends the mutations of the variant's fields |
| Visitors.Visitor.VisitFields | src/visitor.rs:81-88 | forwards only named fields, in order, to syn's own field visit, so the mutations are unchanged |
| Visitors.Visitor.VisitField | src/visitor.rs:90-93 | appends exactly the field's visibility mutations |
| Visitors.Visitor.DefaultVisitField | src/visitor.rs:85 | syn's own `visit_field`, called from the `visit_fields` override, changes nothing |
| Visitors.Visitor.DefaultVisitItemUnion | src/visitor.rs:90-93 | syn's `visit_item_union` appends the candidates of the union's fields, in order, through the `visit_field` override; the union's own visibility adds nothing |
| Visitors.Visitor.DefaultVisitVariant | src/visitor.rs:72 | syn's variant visit reaches the visitor's field-list override and changes nothing |
| Visitors.Visitor.DefaultVisitFields | src/visitor.rs:60 | syn's field-list visit appends the mutations of named and tuple fields in order |
| Visitors.Visitor.DefaultVisitFieldList | src/visitor.rs:60 | appends every field's visibility mutations, in order |
| Visitors.Visitor.VisitItem | src/visitor.rs:56-93 | dispatches on the item kind and appends exactly that item's mutations |
| Visitors.Visitor.VisitItems | src/visitor.rs:56-74 | appends the mutations of each item, in order |
| Visitors.Visitor.VisitFile | src/visitor.rs:56-94 | appends the mutations of every item of the file, in order |
| Visitors.LeadingPubRemoved | src/visitor.rs:27-37 | ToVisInherited on a `pub` at the start of a one-line file yields a space followed by the text after the keyword and its following char |
| Visitors.PublicUnionField | src/visitor.rs:90-93 | in `pub union U { pub a: u32 }` only the field's `pub` yields candidates: the four of `pub`, on the field keyword's span |
| Visitors.PublicStructWithPublicField | src/visitor.rs:57-61 | a `pub struct` with one `pub` named field yields eight mutations: four on the struct's keyword, then four on the field's |
| Visitors.PublicStructScenario | src/visitor.rs:57-61 | in a one-line file `pub ` + rest, such as `pub struct Foo { pub x: i32 }`, the struct's second candidate is ToVisInherited and yields ` ` + rest, keeping the field's `pub` |
| Tree.Discover | src/source.rs:53-59 | a file that does not parse gives its parse error; otherwise a fresh visitor over the parsed file gives exactly that file's mutations |
| Tree.NewSourceTree | src/source.rs:72-82 | succeeds iff the root contains a regular `Cargo.toml`, keeping the root; otherwise a missing-manifest error for that root |
| Tree.SourceFileOf | src/source.rs:93-114 | one step of the pipeline: a yielded file comes from a regular-file entry, keeps the walked path (strip the root, join it again) and has an `rs` extension |
| Tree.SourceFiles | src/source.rs:88-115 | the pipeline yields at most one file per walk item |
| Tree.SourceFileOfAdmitted | src/source.rs:97-114 | a walk item yields a file iff it is a readable regular file with an `rs` extension; stripping the root and joining it again gives the walked path back |
| Tree.SourceFilesMembers | src/source.rs:88-115 | a file is enumerated iff some walk item is a readable regular `.rs` file at its path, and its code is that file's normalised text; walk errors and unreadable files are dropped |
| Tree.SourceFilesAreRustSources | src/source.rs:88-115 | every enumerated file lies below `root/src`, has an `rs` extension and holds the normalised text of a readable file |
| Tree.SourceFilesInWalkOrder | src/source.rs:88-115 | enumeration keeps walk order: the files of a concatenated walk are those of its parts, concatenated |
| Tree.BatchSize | src/source.rs:120 | the batch size lies in 1..=15 |
| Tree.Rounds | src/source.rs:123-133 | the rounds of the sampling loop: they consume no more draws than there are, never go back on a draw, keep the files already drawn as a prefix, and end with `DrawsExhausted` only when every draw is consumed |
| Tree.RoundsDrawFromFiles | src/source.rs:124-126 | every file drawn is an enumerated file, and every file drawn before the last one parsed |
| Tree.RoundsAbortOnParseError | src/source.rs:126 | the rounds end with a parse error iff the last drawn file fails to parse, and then with that file's error; every other error is `DrawsExhausted` |
| Tree.RoundsOkAreCandidates | src/source.rs:123-134 | a successful run of the rounds holds exactly the batch size of mutations, each a candidate of a drawn file |
| Tree.RoundsSucceed | src/source.rs:123-134 | when every file parses and has candidates, each round adds one mutation for two draws, so enough draws make the rounds succeed |
| Tree.SampleOutcome | src/source.rs:118-135 | the sampling consumes at most the draws given, and `DrawsExhausted` only once all are consumed. On success it holds exactly the batch size of mutations, each a candidate of a drawn file. Every drawn file is enumerated and every one before the last parsed. The result is a parse error iff the last drawn file fails to parse, and then it is that file's error |
| Tree.SampleSucceeds | src/source.rs:118-135 | with files that all parse and have candidates, and at least two draws per mutation after the first, sampling succeeds |
| Tree.FirstDrawnFailureAborts | src/source.rs:124-126 | if the file the second draw selects fails to parse, the sampling ends at once with that file's error, having drawn that file alone and consumed two draws |
| Tree.SampleBatch | src/source.rs:117-135 | `SourceTree::mutation` as a loop that enumerates the tree afresh each round; its result, the files it draws and the draws it consumes are exactly those of the sampling specification |

## Left out

- File I/O (`read_to_string`, `fs::write`, `rewrite`). The file system is a map from readable paths to their text, and a path missing from the map cannot be read. Writing a mutated file is not modelled.
- `walkdir`, `sort_by_file_name` and `is_file`. The walk is a given list of entries, each with its path and whether it is a regular file, and it is assumed to be already in file-name order. `SourceTree::new` receives the set of paths that are regular files.
- `syn` parsing. It is a function parameter: a text maps to an item tree, or to none for a parse failure.
- The item tree keeps only the visibilities and field lists the visitor reads. Structs, fns, enums and unions have their own node kinds. Every other item kind is `Other`, which holds the items that `syn`'s default traversal reaches inside it, in order (an inline module's items, or items declared in an impl method's body). Types, expressions and generics are not modelled. An item declared inside a block expression in a type or an enum discriminant is not represented.
- `syn`'s default `visit_fields`: this model sends both named and tuple fields to `Visitor::visit_field`, in order. The enum path reaches `Visitor::visit_fields`, which sends named fields to `syn::visit::visit_field` (the library default, not the override). Enum variant fields therefore add nothing.
- `Visibility::Crate`: this is the bare `crate` keyword of syn 1. `pub(crate)` parses as `Visibility::Restricted` and yields no mutations.
- `replace_region`: its source is not part of this model. `ReplaceRegion` is a char scan from `(1, 1)` that treats both span ends as inclusive, as the `Span` comments state. When no char stands at the start, nothing is inserted.
- Randomness (`thread_rng`, `gen_range`, `choose`, `shuffle`, `pop`). It is a list of draws:
  - the first draw gives the batch size, as `1 + d % 15`;
  - each further round uses one draw for the file, as the draw modulo the number of files, even when there are no files;
  - a file with candidates uses one more draw for the candidate that shuffling and popping leaves, as the draw modulo the number of candidates.
  Uniformity is not modelled.
- Tree.SampleBatch: the source loops forever when no file has a candidate. The model instead ends with `DrawsExhausted` once the draws run out, so the list of draws also serves as fuel, and termination is not claimed.
- The `to_str().unwrap()` calls at src/source.rs:76 and src/source.rs:109 panic on a path that is not valid UTF-8. Paths are sequences of strings here, so these panics are not modelled.
- `SourceFile::code` is a shared `Rc<String>`. The model uses plain values, so sharing and reference counting are not modelled.
- Error messages, the `eprintln!` reports of skipped walk entries and unreadable files, and `anyhow` contexts are not modelled. Errors are modelled only as their kind and path.
- The process plumbing of `src/git.rs` and `src/cargo.rs`, the command line of `src/bin/retypist.rs`, the interrupt flag and the reset/apply/test/commit campaign loop are not modelled. They are process control and I/O outside the mutation engine.

## Notes on the source

- The `visit_fields` override (src/visitor.rs:82-88) skips tuple fields. But `visit_item_struct` calls `syn`'s default `visit_fields` (src/visitor.rs:60), which sends tuple fields to the `visit_field` override too. So tuple-struct fields are collected.
- The doc comments at src/mutation.rs:11-14 speak of `pub(crate)`. But syn 1 parses `pub(crate)` as `Visibility::Restricted`, which yields nothing (src/visitor.rs:50). Only the bare `crate` keyword (src/visitor.rs:39-48) yields ToVisSelf, ToVisSuper and ToVisInherited.
- Unions have no override, yet their fields are collected: `syn`'s default `visit_item_union` sends its named fields to the `visit_field` override (src/visitor.rs:91-93).

=== FILE: editor.dfy ===
/** Positions and spans in a source file, and the text editor that replaces
    the region a span denotes (src/editor.rs). */
module Editor {

  /** A position in a source file: 1-based line, 1-based column counted in chars. */
  datatype LineColumn = LineColumn(line: nat, column: nat)

  /** A contiguous region of a file; `start` and `end` are both inclusive. */
  datatype Span = Span(start: LineColumn, end: LineColumn)

  /** A position as the tokenizer (proc_macro2) reports it: 1-based line,
      0-based column counted in chars. */
  datatype ProcLineColumn = ProcLineColumn(line: nat, column: nat)

  /** A token's span as the tokenizer reports it: `end` is the position just
      after the token's last char. */
  datatype ProcSpan = ProcSpan(start: ProcLineColumn, end: ProcLineColumn)

  /** `impl From<proc_macro2::LineColumn> for LineColumn`. */
  function FromProcLineColumn(l: ProcLineColumn): (r: LineColumn)
    ensures r.line == l.line && r.column >= 1
  {
    LineColumn(l.line, l.column + 1)
  }

  /** Both `impl From<proc_macro2::Span> for Span` and
      `impl From<&proc_macro2::Span> for Span`: a datatype value has no
      by-reference form, and the two bodies are the same. */
  function FromProcSpan(s: ProcSpan): (r: Span)
    ensures ProcAtOrBefore(s.start, s.end) <==> AtOrBefore(r.start, r.end)
  {
    Span(FromProcLineColumn(s.start), FromProcLineColumn(s.end))
  }

  // Document order on positions.

  predicate Before(a: LineColumn, b: LineColumn)
  {
    a.line < b.line || (a.line == b.line && a.column < b.column)
  }

  predicate AtOrBefore(a: LineColumn, b: LineColumn)
  {
    a.line < b.line || (a.line == b.line && a.column <= b.column)
  }

  predicate ProcBefore(a: ProcLineColumn, b: ProcLineColumn)
  {
    a.line < b.line || (a.line == b.line && a.column < b.column)
  }

  predicate ProcAtOrBefore(a: ProcLineColumn, b: ProcLineColumn)
  {
    a.line < b.line || (a.line == b.line && a.column <= b.column)
  }

  /** The conversion keeps the line and turns the 0-based column into the
      documented 1-based one. */
  lemma ConversionShiftsColumn(l: ProcLineColumn)
    ensures FromProcLineColumn(l).line == l.line
    ensures FromProcLineColumn(l).column == l.column + 1
    ensures FromProcLineColumn(l).column >= 1
  {
  }

  /** The conversion is an order embedding: it neither reorders nor merges positions. */
  lemma ConversionPreservesOrder(a: ProcLineColumn, b: ProcLineColumn)
    ensures ProcBefore(a, b) <==> Before(FromProcLineColumn(a), FromProcLineColumn(b))
    ensures ProcAtOrBefore(a, b) <==> AtOrBefore(FromProcLineColumn(a), FromProcLineColumn(b))
    ensures a == b <==> FromProcLineColumn(a) == FromProcLineColumn(b)
  {
  }

  /** A converted span is the conversion of its two ends, and a well-ordered
      tokenizer span stays well ordered. */
  lemma SpanConversion(s: ProcSpan)
    ensures FromProcSpan(s).start == FromProcLineColumn(s.start)
    ensures FromProcSpan(s).end == FromProcLineColumn(s.end)
    ensures ProcAtOrBefore(s.start, s.end) <==> AtOrBefore(FromProcSpan(s).start, FromProcSpan(s).end)
  {
  }

  // Positions of the chars of a document.

  /** Where the first char of a document stands. */
  const Origin := LineColumn(1, 1)

  /** The position of the char that follows `c` when `c` stands at `p`. */
  function Step(p: LineColumn, c: char): LineColumn
  {
    if c == '\n' then LineColumn(p.line + 1, 1) else LineColumn(p.line, p.column + 1)
  }

  /** `Positions(s, p)[i]` is where `s[i]` stands when `s[0]` stands at `p`. */
  function Positions(s: string, p: LineColumn): (ps: seq<LineColumn>)
    ensures |ps| == |s|
    decreases |s|
  {
    if s == [] then [] else [p] + Positions(s[1..], Step(p, s[0]))
  }

  /** No char stands before the first one. */
  lemma {:induction false} PositionsFrom(s: string, p: LineColumn)
    ensures forall q :: q in Positions(s, p) ==> AtOrBefore(p, q)
    decreases |s|
  {
    if s != [] {
      PositionsFrom(s[1..], Step(p, s[0]));
    }
  }

  /** Positions strictly increase along the document, so every position
      names at most one char. */
  lemma {:induction false} PositionsIncrease(s: string, p: LineColumn)
    ensures forall i, j :: 0 <= i < j < |s| ==> Before(Positions(s, p)[i], Positions(s, p)[j])
    decreases |s|
  {
    if s != [] {
      var rest := Positions(s[1..], Step(p, s[0]));
      PositionsIncrease(s[1..], Step(p, s[0]));
      PositionsFrom(s[1..], Step(p, s[0]));
      forall i, j | 0 <= i < j < |s|
        ensures Before(Positions(s, p)[i], Positions(s, p)[j])
      {
        assert Positions(s, p)[j] == rest[j - 1];
        if i == 0 {
          assert rest[j - 1] in rest;
        } else {
          assert Positions(s, p)[i] == rest[i - 1];
        }
      }
    }
  }

  /** The index of the first char that stands at or after `q`, or `|s|`. */
  function FirstAtOrAfter(s: string, p: LineColumn, q: LineColumn): (k: nat)
    ensures k <= |s|
    ensures forall i :: 0 <= i < k ==> Before(Positions(s, p)[i], q)
    ensures k < |s| ==> AtOrBefore(q, Positions(s, p)[k])
    decreases |s|
  {
    if s == [] || AtOrBefore(q, p) then 0
    else
      var k' := FirstAtOrAfter(s[1..], Step(p, s[0]), q);
      assert forall i :: 1 <= i < |s| ==> Positions(s, p)[i] == Positions(s[1..], Step(p, s[0]))[i - 1];
      1 + k'
  }

  /** The index of the first char that stands strictly after `q`, or `|s|`. */
  function FirstAfter(s: string, p: LineColumn, q: LineColumn): (k: nat)
    ensures k <= |s|
    ensures forall i :: 0 <= i < k ==> AtOrBefore(Positions(s, p)[i], q)
    ensures k < |s| ==> Before(q, Positions(s, p)[k])
    decreases |s|
  {
    if s == [] || Before(q, p) then 0
    else
      var k' := FirstAfter(s[1..], Step(p, s[0]), q);
      assert forall i :: 1 <= i < |s| ==> Positions(s, p)[i] == Positions(s[1..], Step(p, s[0]))[i - 1];
      1 + k'
  }

  /** Offset of the first char of the region that starts at `start`. */
  function StartOffset(s: string, start: LineColumn): nat
  {
    FirstAtOrAfter(s, Origin, start)
  }

  /** Offset of the first char after the region that ends (inclusively) at `end`. */
  function EndOffset(s: string, end: LineColumn): nat
  {
    FirstAfter(s, Origin, end)
  }

  /** Some char of `s` stands exactly at `pos`. */
  predicate Locates(s: string, pos: LineColumn)
  {
    pos in Positions(s, Origin)
  }

  /** The char scan behind `replace_region`: walks `s` keeping track of the
      current position `p`, copies every char outside `[start, end]`, drops
      the chars inside, and emits `replacement` at the char standing at `start`. */
  function ReplaceFrom(s: string, p: LineColumn, start: LineColumn, end: LineColumn, replacement: string): (t: string)
    ensures Before(end, p) ==> t == s
    decreases |s|
  {
    if s == [] then []
    else
      ScanHead(s[0], p, start, end, replacement) + ReplaceFrom(s[1..], Step(p, s[0]), start, end, replacement)
  }

  /** Once the scan has passed `q`, no later char stands at `q`. */
  lemma NotLocatedAfter(s: string, p: LineColumn, q: LineColumn)
    requires Before(q, p)
    ensures q !in Positions(s, p)
  {
    PositionsFrom(s, p);
  }

  /** What one step of the scan emits for the char `c` standing at `p`. */
  function ScanHead(c: char, p: LineColumn, start: LineColumn, end: LineColumn, replacement: string): string
  {
    if Before(p, start) || Before(end, p) then [c]
    else if p == start then replacement
    else []
  }

  /** One step of the scan: the output for the first char, then the scan of the rest. */
  lemma ReplaceFromUnfold(s: string, p: LineColumn, start: LineColumn, end: LineColumn, replacement: string)
    requires s != []
    ensures ReplaceFrom(s, p, start, end, replacement)
         == ScanHead(s[0], p, start, end, replacement) + ReplaceFrom(s[1..], Step(p, s[0]), start, end, replacement)
    ensures Positions(s, p) == [p] + Positions(s[1..], Step(p, s[0]))
  {
  }

  /** Sequence bookkeeping for a scan step that copies the first char. */
  lemma CopyHeadSplice(s: string, a': nat, b': nat, x: string)
    requires s != [] && a' <= |s| - 1 && b' <= |s| - 1
    ensures [s[0]] + (s[1..][..a'] + x + s[1..][b'..]) == s[..1 + a'] + x + s[1 + b'..]
  {
    assert s[..1 + a'] == [s[0]] + s[1..][..a'];
    assert s[1 + b'..] == s[1..][b'..];
  }

  /** What the scan of `s` from `p` should give: the split `ReplaceFromSplits` proves. */
  function Split(s: string, p: LineColumn, start: LineColumn, end: LineColumn, replacement: string): string
  {
    s[..FirstAtOrAfter(s, p, start)]
    + (if start in Positions(s, p) then replacement else [])
    + s[FirstAfter(s, p, end)..]
  }

  /** Offsets and location when the first char stands before `start`. */
  lemma OffsetsBefore(s: string, p: LineColumn, start: LineColumn, end: LineColumn)
    requires s != [] && Before(p, start) && AtOrBefore(start, end)
    ensures FirstAtOrAfter(s, p, start) == 1 + FirstAtOrAfter(s[1..], Step(p, s[0]), start)
    ensures FirstAfter(s, p, end) == 1 + FirstAfter(s[1..], Step(p, s[0]), end)
    ensures (start in Positions(s, p)) == (start in Positions(s[1..], Step(p, s[0])))
  {
  }

  /** Offsets and location when the first char stands inside `[start, end]`. */
  lemma OffsetsInside(s: string, p: LineColumn, start: LineColumn, end: LineColumn)
    requires s != [] && !Before(p, start) && !Before(end, p)
    ensures FirstAtOrAfter(s, p, start) == 0 && FirstAtOrAfter(s[1..], Step(p, s[0]), start) == 0
    ensures FirstAfter(s, p, end) == 1 + FirstAfter(s[1..], Step(p, s[0]), end)
    ensures (start in Positions(s, p)) == (p == start)
    ensures start !in Positions(s[1..], Step(p, s[0]))
  {
    NotLocatedAfter(s[1..], Step(p, s[0]), start);
  }

  /** A scan step before the region copies the char and leaves the split of the rest. */
  lemma SplitStepBefore(s: string, p: LineColumn, start: LineColumn, end: LineColumn, replacement: string)
    requires s != [] && Before(p, start) && AtOrBefore(start, end)
    requires ReplaceFrom(s[1..], Step(p, s[0]), start, end, replacement) == Split(s[1..], Step(p, s[0]), start, end, replacement)
    ensures ReplaceFrom(s, p, start, end, replacement) == Split(s, p, start, end, replacement)
  {
    var p', s' := Step(p, s[0]), s[1..];
    var a', b' := FirstAtOrAfter(s', p', start), FirstAfter(s', p', end);
    var x' := if start in Positions(s', p') then replacement else [];
    assert ReplaceFrom(s, p, start, end, replacement) == [s[0]] + ReplaceFrom(s', p', start, end, replacement) by {
      ReplaceFromUnfold(s, p, start, end, replacement);
    }
    assert [s[0]] + (s'[..a'] + x' + s'[b'..]) == s[..1 + a'] + x' + s[1 + b'..] by {
      CopyHeadSplice(s, a', b', x');
    }
    assert Split(s, p, start, end, replacement) == s[..1 + a'] + x' + s[1 + b'..] by {
      OffsetsBefore(s, p, start, end);
    }
  }

  /** A scan step after the region copies the char, and so does the rest of the scan. */
  lemma SplitStepAfter(s: string, p: LineColumn, start: LineColumn, end: LineColumn, replacement: string)
    requires s != [] && Before(end, p) && AtOrBefore(start, end)
    ensures ReplaceFrom(s, p, start, end, replacement) == Split(s, p, start, end, replacement)
  {
    NotLocatedAfter(s, p, start);
    assert FirstAtOrAfter(s, p, start) == 0 && FirstAfter(s, p, end) == 0;
  }

  /** Inside `[start, end]` the scan emits the replacement at `start` and nothing elsewhere. */
  lemma ScanInside(s: string, p: LineColumn, start: LineColumn, end: LineColumn, replacement: string)
    requires s != [] && !Before(p, start) && !Before(end, p)
    ensures ReplaceFrom(s, p, start, end, replacement)
         == (if p == start then replacement else []) + ReplaceFrom(s[1..], Step(p, s[0]), start, end, replacement)
  {
    ReplaceFromUnfold(s, p, start, end, replacement);
  }

  /** Inside `[start, end]` the split of the text and of its tail differ by what is emitted at `p`. */
  lemma SplitInside(s: string, p: LineColumn, start: LineColumn, end: LineColumn, replacement: string)
    requires s != [] && !Before(p, start) && !Before(end, p)
    ensures var b' := FirstAfter(s[1..], Step(p, s[0]), end);
            Split(s[1..], Step(p, s[0]), start, end, replacement) == s[1..][b'..]
            && Split(s, p, start, end, replacement) == (if p == start then replacement else []) + s[1..][b'..]
  {
    var b' := FirstAfter(s[1..], Step(p, s[0]), end);
    var a, b := FirstAtOrAfter(s, p, start), FirstAfter(s, p, end);
    var located := start in Positions(s, p);
    OffsetsInside(s, p, start, end);
    assert a == 0 && b == 1 + b' && located == (p == start);
    assert s[..a] == [] && s[b..] == s[1..][b'..];
  }

  /** A scan step inside the region drops the char, or puts the replacement for it at `start`. */
  lemma SplitStepInside(s: string, p: LineColumn, start: LineColumn, end: LineColumn, replacement: string)
    requires s != [] && !Before(p, start) && !Before(end, p)
    requires ReplaceFrom(s[1..], Step(p, s[0]), start, end, replacement) == Split(s[1..], Step(p, s[0]), start, end, replacement)
    ensures ReplaceFrom(s, p, start, end, replacement) == Split(s, p, start, end, replacement)
  {
    ScanInside(s, p, start, end, replacement);
    SplitInside(s, p, start, end, replacement);
  }

  /** The scan keeps the text before `start`, puts `replacement` where the
      char at `start` was (if one stands there), and keeps the text after `end`. */
  lemma {:induction false} ReplaceFromSplits(s: string, p: LineColumn, start: LineColumn, end: LineColumn, replacement: string)
    requires AtOrBefore(start, end)
    ensures ReplaceFrom(s, p, start, end, replacement) == Split(s, p, start, end, replacement)
    decreases |s|
  {
    if s != [] {
      ReplaceFromSplits(s[1..], Step(p, s[0]), start, end, replacement);
      if Before(p, start) {
        SplitStepBefore(s, p, start, end, replacement);
      } else if Before(end, p) {
        SplitStepAfter(s, p, start, end, replacement);
      } else {
        SplitStepInside(s, p, start, end, replacement);
      }
    }
  }

  /** `replace_region(s, start, end, replacement)`, called by `Mutation::mutate`;
      its body is not part of this model, so it is given by this contract:
      the text before `start`, then `replacement`, then the text after the
      inclusive `end`. When no char stands at `start` nothing is inserted. */
  function ReplaceRegion(s: string, start: LineColumn, end: LineColumn, replacement: string): (t: string)
    ensures AtOrBefore(start, end) ==>
      t == s[..StartOffset(s, start)]
           + (if Locates(s, start) then replacement else [])
           + s[EndOffset(s, end)..]
  {
    if AtOrBefore(start, end) then
      ReplaceFromSplits(s, Origin, start, end, replacement);
      ReplaceFrom(s, Origin, start, end, replacement)
    else
      ReplaceFrom(s, Origin, start, end, replacement)
  }

  /** On a line without line breaks the i-th char stands at column `c + i`. */
  lemma {:induction false} SingleLinePositions(s: string, line: nat, c: nat)
    requires '\n' !in s
    ensures forall i :: 0 <= i < |s| ==> Positions(s, LineColumn(line, c))[i] == LineColumn(line, c + i)
    decreases |s|
  {
    if s != [] {
      assert '\n' !in s[1..] by {
        forall i | 0 <= i < |s| - 1 ensures s[1..][i] != '\n' { assert s[1..][i] == s[i + 1]; }
      }
      SingleLinePositions(s[1..], line, c + 1);
    }
  }

  /** The number of line breaks in `t`. */
  function CountLf(t: string): nat
    decreases |t|
  {
    if t == [] then 0 else CountLf(t[..|t| - 1]) + (if t[|t| - 1] == '\n' then 1 else 0)
  }

  /** The index of the last line break in `t`, or -1 when there is none. */
  function LastLf(t: string): (k: int)
    ensures -1 <= k < |t|
    ensures k >= 0 ==> t[k] == '\n'
    ensures forall j :: k < j < |t| ==> t[j] != '\n'
    decreases |t|
  {
    if t == [] then -1 else if t[|t| - 1] == '\n' then |t| - 1 else LastLf(t[..|t| - 1])
  }

  /** Each char stands where `Step` from its predecessor leads. */
  lemma {:induction false} PositionsStep(s: string, p: LineColumn, i: nat)
    requires i + 1 < |s|
    ensures Positions(s, p)[i + 1] == Step(Positions(s, p)[i], s[i])
    decreases i
  {
    if i > 0 {
      PositionsStep(s[1..], Step(p, s[0]), i - 1);
    }
  }

  /** Where the i-th char stands when `s[0]` stands at `p`: on the line `p`'s
      line plus the line breaks before it, and, after the last of those, on
      the column counted from the char that follows it. */
  lemma {:induction false} PositionAt(s: string, p: LineColumn, i: nat)
    requires i < |s|
    ensures Positions(s, p)[i]
         == LineColumn(p.line + CountLf(s[..i]),
                       if LastLf(s[..i]) < 0 then p.column + i else i - LastLf(s[..i]))
    decreases i
  {
    if i > 0 {
      PositionAt(s, p, i - 1);
      PositionsStep(s, p, i - 1);
      assert s[..i][..i - 1] == s[..i - 1];
      assert s[..i][i - 1] == s[i - 1];
    }
  }

  /** In a document starting at `Origin`, the i-th char stands on line 1
      plus the number of line breaks before it, and on the column counted
      from the last of those (from the start of the document when there is
      none). */
  lemma MultiLinePositions(s: string)
    ensures forall i :: 0 <= i < |s| ==>
              Positions(s, Origin)[i]
              == LineColumn(1 + CountLf(s[..i]), if LastLf(s[..i]) < 0 then 1 + i else i - LastLf(s[..i]))
  {
    forall i | 0 <= i < |s|
      ensures Positions(s, Origin)[i]
              == LineColumn(1 + CountLf(s[..i]), if LastLf(s[..i]) < 0 then 1 + i else i - LastLf(s[..i]))
    {
      PositionAt(s, Origin, i);
    }
  }

  /** The end convention made concrete: the span the tokenizer reports for a
      token of `n` chars at 0-based column `c` of a one-line document covers
      the token AND the char after it, because the converted end is the
      1-based column of that following char and the end is inclusive. */
  lemma TokenSpanCoversNextChar(s: string, c: nat, n: nat, replacement: string)
    requires '\n' !in s
    requires c + n < |s|
    ensures var span := FromProcSpan(ProcSpan(ProcLineColumn(1, c), ProcLineColumn(1, c + n)));
            ReplaceRegion(s, span.start, span.end, replacement) == s[..c] + replacement + s[c + n + 1..]
  {
    var start := LineColumn(1, c + 1);
    var end := LineColumn(1, c + n + 1);
    SingleLinePositions(s, 1, 1);
    var ps := Positions(s, Origin);
    assert ps[c] == start;
    var b := EndOffset(s, end);
    assert b > c + n + 1 ==> AtOrBefore(ps[c + n + 1], end);
  }
}

=== FILE: mutation.dfy ===
/** Visibility-narrowing mutation operations and the mutations that carry
    them (src/mutation.rs). */
module Mutations {
  import opened Wrappers
  import opened Editor
  import opened Source

  /** The closed set of edits the tool knows. */
  datatype MutationOp =
    | ToVisCrate      // `pub` to `pub(crate)`
    | ToVisSelf       // `pub(crate)` to `pub(self)`
    | ToVisSuper      // `pub(crate)` to `pub(super)`
    | ToVisInherited  // any visibility to inherited (none written)

  /** `MutationOp::replacement`: the text that replaces the mutated span. */
  function Replacement(op: MutationOp): (text: string)
    ensures OpForReplacement(text) == Some(op)
  {
    match op
    case ToVisCrate => " pub(crate) "
    case ToVisSelf => " pub(self) "
    case ToVisSuper => " pub(super) "
    case ToVisInherited => " "
  }

  /** Every replacement begins and ends with a space (the padding that makes
      up for the char after the token that the span also covers). */
  lemma ReplacementPadded(op: MutationOp)
    ensures |Replacement(op)| >= 1
    ensures Replacement(op)[0] == ' ' && Replacement(op)[|Replacement(op)| - 1] == ' '
  {
  }

  /** The operation whose replacement is `text`, if any. */
  function OpForReplacement(text: string): Option<MutationOp>
  {
    if text == " pub(crate) " then Some(ToVisCrate)
    else if text == " pub(self) " then Some(ToVisSelf)
    else if text == " pub(super) " then Some(ToVisSuper)
    else if text == " " then Some(ToVisInherited)
    else None
  }

  /** The inserted text identifies the operation, so the four replacements
      are pairwise distinct. */
  lemma ReplacementIdentifiesOp(op: MutationOp, other: MutationOp)
    ensures OpForReplacement(Replacement(op)) == Some(op)
    ensures Replacement(op) == Replacement(other) <==> op == other
  {
  }

  /** A candidate edit: which file, which region, which operation. */
  datatype Mutation = Mutation(sourceFile: SourceFile, span: Span, op: MutationOp)
  {
    /** `Mutation::new(source_file, op, span)`. */
    static function New(sourceFile: SourceFile, op: MutationOp, span: Span): (m: Mutation)
      ensures m.sourceFile == sourceFile && m.op == op && m.span == span
    {
      Mutation(sourceFile, span, op)
    }

    /** `Mutation::mutate`: the text of the whole file with the mutation
        applied. Nothing is written: the file value is left as it is. */
    function Mutate(): (text: string)
      ensures AtOrBefore(span.start, span.end) ==>
        text == sourceFile.code[..StartOffset(sourceFile.code, span.start)]
                + (if Locates(sourceFile.code, span.start) then Replacement(op) else [])
                + sourceFile.code[EndOffset(sourceFile.code, span.end)..]
    {
      ReplaceRegion(sourceFile.code, span.start, span.end, Replacement(op))
    }
  }

  /** Applying a mutation whose start names a char puts the operation's
      replacement at that char's offset, and the text before it is untouched. */
  lemma MutateInsertsReplacement(m: Mutation)
    requires AtOrBefore(m.span.start, m.span.end)
    requires Locates(m.sourceFile.code, m.span.start)
    ensures var code, a := m.sourceFile.code, StartOffset(m.sourceFile.code, m.span.start);
            var text := m.Mutate();
            |text| >= a + |Replacement(m.op)|
            && text[..a] == code[..a]
            && text[a..a + |Replacement(m.op)|] == Replacement(m.op)
  {
    var code, a := m.sourceFile.code, StartOffset(m.sourceFile.code, m.span.start);
    var text := m.Mutate();
    var r := Replacement(m.op);
    assert text == code[..a] + r + code[EndOffset(code, m.span.end)..];
    assert text[a..a + |r|] == r;
  }
}

=== FILE: source.dfy ===
/** A Rust source file within a source tree, with the path and line-ending
    logic it relies on (src/source.rs:14-64). */
module Source {
  import opened Wrappers

  /** A path as its sequence of components; `tree.join(rel)` of a relative
      path is concatenation. */
  type Path = seq<string>

  /** `SourceFile`: where the file is and its code with Unix line endings. */
  datatype SourceFile = SourceFile(path: Path, code: string)

  datatype Error =
    | ReadError(path: Path)         // `read_to_string` failed
    | ParseError(path: Path)        // `syn::parse_str` rejected the code
    | MissingManifest(root: Path)   // the root has no `Cargo.toml`
    | DrawsExhausted                // the supplied random draws ran out

  // Line endings.

  /** `code.replace("\r\n", "\n")`: every left-to-right, non-overlapping
      CR LF pair becomes LF. */
  function NormalizeLineEndings(s: string): (t: string)
    ensures |t| <= |s|
    decreases |s|
  {
    if |s| >= 2 && s[0] == '\r' && s[1] == '\n' then "\n" + NormalizeLineEndings(s[2..])
    else if s == [] then []
    else [s[0]] + NormalizeLineEndings(s[1..])
  }

  predicate ContainsCrLf(s: string)
  {
    exists i :: 0 <= i < |s| - 1 && s[i] == '\r' && s[i + 1] == '\n'
  }

  /** `s` with every CR removed. */
  function DropCarriageReturns(s: string): (t: string)
    ensures '\r' !in t
    decreases |s|
  {
    if s == [] then []
    else if s[0] == '\r' then DropCarriageReturns(s[1..])
    else [s[0]] + DropCarriageReturns(s[1..])
  }

  /** Every LF written as CR LF, as a Windows editor saves a file. */
  function WithCrLf(s: string): string
    decreases |s|
  {
    if s == [] then []
    else if s[0] == '\n' then "\r\n" + WithCrLf(s[1..])
    else [s[0]] + WithCrLf(s[1..])
  }

  /** Normalisation only removes carriage returns: every other char is kept, in order. */
  lemma {:induction false} NormalizeKeepsOtherChars(s: string)
    ensures DropCarriageReturns(NormalizeLineEndings(s)) == DropCarriageReturns(s)
    decreases |s|
  {
    if |s| >= 2 && s[0] == '\r' && s[1] == '\n' {
      NormalizeKeepsOtherChars(s[2..]);
      assert s[1..][1..] == s[2..];
    } else if s != [] {
      NormalizeKeepsOtherChars(s[1..]);
    }
  }

  /** Normalisation shortens the text by at least one char iff it holds a CR LF pair. */
  lemma {:induction false} NormalizeShortens(s: string)
    ensures ContainsCrLf(s) <==> |NormalizeLineEndings(s)| < |s|
    decreases |s|
  {
    NormalizeKeepsOtherChars(s);
    if |s| >= 2 && s[0] == '\r' && s[1] == '\n' {
      NormalizeKeepsOtherChars(s[2..]);
    } else if s != [] {
      NormalizeShortens(s[1..]);
      if ContainsCrLf(s) {
        var i :| 0 <= i < |s| - 1 && s[i] == '\r' && s[i + 1] == '\n';
        assert i > 0;
        assert s[1..][i - 1] == '\r' && s[1..][i] == '\n';
      }
      if ContainsCrLf(s[1..]) {
        var i :| 0 <= i < |s| - 2 && s[1..][i] == '\r' && s[1..][i + 1] == '\n';
        assert s[i + 1] == '\r' && s[i + 2] == '\n';
      }
    }
  }

  /** The loaded code equals the file's text exactly when the text has no CR LF pair. */
  lemma {:induction false} NormalizeIdentityIff(s: string)
    ensures NormalizeLineEndings(s) == s <==> !ContainsCrLf(s)
    decreases |s|
  {
    NormalizeShortens(s);
    if !ContainsCrLf(s) && s != [] {
      assert !(|s| >= 2 && s[0] == '\r' && s[1] == '\n');
      NormalizeIdentityIff(s[1..]);
    }
  }

  /** Text without any CR is loaded unchanged. */
  lemma NormalizeWithoutCr(s: string)
    requires '\r' !in s
    ensures NormalizeLineEndings(s) == s
  {
    NormalizeIdentityIff(s);
  }

  /** Loading undoes Windows line endings: a CR-free text saved with CR LF
      line endings is read back as itself. */
  lemma {:induction false} NormalizeUndoesCrLf(s: string)
    requires '\r' !in s
    ensures NormalizeLineEndings(WithCrLf(s)) == s
    decreases |s|
  {
    if s != [] {
      assert '\r' !in s[1..] by {
        forall i | 0 <= i < |s| - 1 ensures s[1..][i] != '\r' { assert s[1..][i] == s[i + 1]; }
      }
      NormalizeUndoesCrLf(s[1..]);
      if s[0] == '\n' {
        var w := "\r\n" + WithCrLf(s[1..]);
        assert w[2..] == WithCrLf(s[1..]);
      } else {
        var w := [s[0]] + WithCrLf(s[1..]);
        assert w[1..] == WithCrLf(s[1..]);
        assert s[0] != '\r' by { assert s[0] in s; }
      }
    }
  }

  /** Matches are taken left to right without overlap, so a CR LF pair can
      survive: CR CR LF becomes CR LF, and normalising is not idempotent. */
  lemma CrCrLfKeepsOnePair()
    ensures NormalizeLineEndings("\r\r\n") == "\r\n"
    ensures NormalizeLineEndings(NormalizeLineEndings("\r\r\n")) == "\n"
  {
    assert "\r\r\n"[1..] == "\r\n";
    assert "\r\n"[2..] == "";
  }

  // Paths.

  /** `Path::file_name`: the last component, none for an empty path or one ending in `..`. */
  function FileName(p: Path): Option<string>
  {
    if p == [] || p[|p| - 1] == ".." then None else Some(p[|p| - 1])
  }

  /** Index of the last `.` in `s`, or -1 when there is none. */
  function LastDot(s: string): (i: int)
    ensures -1 <= i < |s|
    ensures i >= 0 ==> s[i] == '.'
    ensures forall j :: i < j < |s| ==> s[j] != '.'
    decreases |s|
  {
    if s == [] then -1
    else if s[|s| - 1] == '.' then |s| - 1
    else LastDot(s[..|s| - 1])
  }

  /** `Path::extension`: what follows the last `.` of the file name; none when
      the name has no `.` or its only `.` is its first char (`.rs`). */
  function Extension(p: Path): (e: Option<string>)
    ensures e.Some? ==> FileName(p).Some? && |e.value| < |FileName(p).value|
  {
    match FileName(p)
    case None => None
    case Some(name) =>
      var i := LastDot(name);
      if i <= 0 then None else Some(name[i + 1..])
  }

  /** A file name has an extension exactly when it holds a `.` after its
      first char, and the extension is then the dot-free tail after the last
      such `.`. */
  lemma ExtensionIsDotFreeTail(p: Path)
    ensures Extension(p).Some? <==>
              FileName(p).Some? && exists j :: 0 < j < |FileName(p).value| && FileName(p).value[j] == '.'
    ensures Extension(p).Some? ==>
              FileName(p).Some?
              && var name, e := FileName(p).value, Extension(p).value;
                 |e| < |name| - 1 && name[|name| - |e| - 1] == '.' && name[|name| - |e|..] == e
                 && (forall j :: 0 <= j < |e| ==> e[j] != '.')
  {
    if FileName(p).Some? {
      var name := FileName(p).value;
      var i := LastDot(name);
      if i > 0 {
        assert 0 < i < |name| && name[i] == '.';
      }
    }
  }

  /** A path whose last component is a non-empty stem followed by `.rs`
      passes the extension test, with the extension `rs`. */
  lemma RustFileAdmitted(p: Path, stem: string)
    requires p != [] && stem != [] && p[|p| - 1] == stem + ".rs"
    ensures Extension(p) == Some("rs")
    ensures HasRustExtension(p)
  {
    var name := stem + ".rs";
    assert name != "..";
    assert name[|stem|] == '.' && name[|stem| + 1] == 'r' && name[|stem| + 2] == 's';
    var i := LastDot(name);
    assert i == |stem|;
    assert name[i + 1..] == "rs";
  }

  function AsciiLower(c: char): char
  {
    if 'A' <= c <= 'Z' then (c as int + 32) as char else c
  }

  /** `OsStr::eq_ignore_ascii_case`. */
  predicate EqIgnoreAsciiCase(a: string, b: string)
  {
    |a| == |b| && forall i :: 0 <= i < |a| ==> AsciiLower(a[i]) == AsciiLower(b[i])
  }

  /** The extension test of `source_files` (src/source.rs:99-102). */
  function HasRustExtension(p: Path): (b: bool)
    ensures b ==> Extension(p).Some? && |Extension(p).value| == 2
  {
    Extension(p).Some? && EqIgnoreAsciiCase(Extension(p).value, "rs")
  }

  /** Ignoring ASCII case admits exactly the four spellings of `rs`. */
  lemma RustExtensionSpellings(p: Path)
    ensures HasRustExtension(p) <==> Extension(p) in {Some("rs"), Some("rS"), Some("Rs"), Some("RS")}
  {
    if HasRustExtension(p) {
      var e := Extension(p).value;
      assert AsciiLower(e[0]) == 'r' && AsciiLower(e[1]) == 's';
      assert e == [e[0], e[1]];
    }
  }

  // Loading.

  /** `SourceFile::new(tree_path, tree_relative)`: reads the file at the
      joined path from `fs` (a path missing from `fs` cannot be read as text)
      and normalises its line endings. */
  function Load(treePath: Path, treeRelative: Path, fs: map<Path, string>): (r: Result<SourceFile, Error>)
    ensures r.Ok? ==> r.value.path == treePath + treeRelative
    ensures r.Err? ==> r.error == ReadError(treePath + treeRelative)
  {
    var fullPath := treePath + treeRelative;
    if fullPath in fs then Ok(SourceFile(fullPath, NormalizeLineEndings(fs[fullPath])))
    else Err(ReadError(fullPath))
  }

  /** Loading fails exactly on unreadable files, and a loaded file keeps the
      joined path and every non-CR char of the text in order. */
  lemma LoadOutcome(treePath: Path, treeRelative: Path, fs: map<Path, string>)
    ensures var r := Load(treePath, treeRelative, fs);
            (r.Ok? <==> treePath + treeRelative in fs)
            && (r.Err? ==> r.error == ReadError(treePath + treeRelative))
            && (r.Ok? ==> r.value.path == treePath + treeRelative
                          && DropCarriageReturns(r.value.code) == DropCarriageReturns(fs[treePath + treeRelative]))
  {
    if treePath + treeRelative in fs {
      NormalizeKeepsOtherChars(fs[treePath + treeRelative]);
    }
  }
}

=== FILE: tree.dfy ===
/** The source tree: discovering a file's mutations, validating the crate
    root, enumerating its source files and sampling a batch of mutations
    (src/source.rs:53-136). The file system is a map from readable paths to
    their text, the directory walk a given list of entries, the parser a
    given function and the random number generator a given list of draws. */
module Tree {
  import opened Wrappers
  import opened Source
  import opened Mutations
  import opened Visitors

  /** `SourceFile::mutations`: parse the code, then collect with a fresh visitor. */
  method Discover(sf: SourceFile, parse: string -> Option<SynFile>) returns (r: Result<seq<Mutation>, Error>)
    ensures parse(sf.code).None? ==> r == Err(ParseError(sf.path))
    ensures parse(sf.code).Some? ==> r == Ok(FileMutations(sf, parse(sf.code).value))
  {
    var parsed := parse(sf.code);
    if parsed.None? {
      return Err(ParseError(sf.path));
    }
    var v := new Visitor(sf);
    v.VisitFile(parsed.value);
    assert v.mutations == [] + FileMutations(sf, parsed.value);
    assert v.mutations == FileMutations(sf, parse(sf.code).value);
    r := Ok(v.mutations);
  }

  /** The candidates of one file, when it parses. */
  predicate IsCandidateOf(m: Mutation, sf: SourceFile, parse: string -> Option<SynFile>)
  {
    parse(sf.code).Some? && m in FileMutations(sf, parse(sf.code).value)
  }

  datatype SourceTree = SourceTree(root: Path)

  /** `SourceTree::new`: `regularFiles` are the paths that are regular files. */
  function NewSourceTree(root: Path, regularFiles: set<Path>): (r: Result<SourceTree, Error>)
    ensures r.Ok? <==> root + ["Cargo.toml"] in regularFiles
    ensures r.Ok? ==> r.value.root == root
    ensures r.Err? ==> r.error == MissingManifest(root)
  {
    if root + ["Cargo.toml"] !in regularFiles then Err(MissingManifest(root))
    else Ok(SourceTree(root))
  }

  /** An entry of the directory walk: its full path and whether it is a regular file. */
  datatype DirEntry = DirEntry(path: Path, isFile: bool)

  /** An item the walk yields: an entry, or an error (unreadable directory, ...). */
  datatype WalkItem = WalkError | Entry(entry: DirEntry)

  /** The walk of `root/src` yields only paths below `root/src`. */
  predicate WalkedUnder(tree: SourceTree, walk: seq<WalkItem>)
  {
    forall k :: 0 <= k < |walk| && walk[k].Entry? ==> tree.root + ["src"] <= walk[k].entry.path
  }

  /** One step of `source_files`: what the pipeline makes of one walk item. */
  function SourceFileOf(tree: SourceTree, item: WalkItem, fs: map<Path, string>): (r: Option<SourceFile>)
    requires item.Entry? ==> tree.root <= item.entry.path
    ensures r.Some? ==> item.Entry? && item.entry.isFile && r.value.path == item.entry.path
                        && HasRustExtension(r.value.path)
  {
    match item
    case WalkError => None
    case Entry(entry) =>
      if !entry.isFile || !HasRustExtension(entry.path) then None
      else
        assert tree.root + entry.path[|tree.root|..] == entry.path;
        match Load(tree.root, entry.path[|tree.root|..], fs)
        case Ok(sf) => Some(sf)
        case Err(_) => None
  }

  /** `SourceTree::source_files`: the walk, sorted by file name, filtered to
      regular files with an `rs` extension that can be read, in walk order;
      walk and read errors are skipped. */
  function SourceFiles(tree: SourceTree, walk: seq<WalkItem>, fs: map<Path, string>): (files: seq<SourceFile>)
    requires WalkedUnder(tree, walk)
    ensures |files| <= |walk|
    decreases |walk|
  {
    if walk == [] then []
    else
      var rest := SourceFiles(tree, walk[1..], fs);
      match SourceFileOf(tree, walk[0], fs)
      case Some(sf) => [sf] + rest
      case None => rest
  }

  /** The walk item a source file is loaded from. */
  predicate Admitted(item: WalkItem, fs: map<Path, string>)
  {
    item.Entry? && item.entry.isFile && HasRustExtension(item.entry.path) && item.entry.path in fs
  }

  /** Stripping the root and joining it again gives the walked path back, so
      a source file keeps the path the walk reported. */
  lemma SourceFileOfAdmitted(tree: SourceTree, item: WalkItem, fs: map<Path, string>)
    requires item.Entry? ==> tree.root <= item.entry.path
    ensures SourceFileOf(tree, item, fs).Some? <==> Admitted(item, fs)
    ensures Admitted(item, fs) ==>
      SourceFileOf(tree, item, fs) == Some(SourceFile(item.entry.path, NormalizeLineEndings(fs[item.entry.path])))
  {
    if item.Entry? {
      var p := item.entry.path;
      assert tree.root + p[|tree.root|..] == p;
    }
  }

  /** A file is enumerated iff some walk item is a readable regular `.rs`
      file at its path, and its code is that file's normalised text. */
  lemma {:induction false} SourceFilesMembers(tree: SourceTree, walk: seq<WalkItem>, fs: map<Path, string>, f: SourceFile)
    requires WalkedUnder(tree, walk)
    ensures f in SourceFiles(tree, walk, fs) <==>
      exists k :: 0 <= k < |walk| && Admitted(walk[k], fs)
                  && f == SourceFile(walk[k].entry.path, NormalizeLineEndings(fs[walk[k].entry.path]))
    decreases |walk|
  {
    if walk != [] {
      SourceFilesMembers(tree, walk[1..], fs, f);
      SourceFileOfAdmitted(tree, walk[0], fs);
      if f in SourceFiles(tree, walk, fs) && f !in SourceFiles(tree, walk[1..], fs) {
        assert Admitted(walk[0], fs);
      }
      if exists k :: 0 <= k < |walk| && Admitted(walk[k], fs)
                     && f == SourceFile(walk[k].entry.path, NormalizeLineEndings(fs[walk[k].entry.path])) {
        var k :| 0 <= k < |walk| && Admitted(walk[k], fs)
                 && f == SourceFile(walk[k].entry.path, NormalizeLineEndings(fs[walk[k].entry.path]));
        if k > 0 {
          assert walk[1..][k - 1] == walk[k];
        }
      }
    }
  }

  /** Every enumerated file lies below `root/src`, is named `*.rs` up to
      ASCII case, and holds its file's text with CR LF pairs normalised. */
  lemma SourceFilesAreRustSources(tree: SourceTree, walk: seq<WalkItem>, fs: map<Path, string>, f: SourceFile)
    requires WalkedUnder(tree, walk)
    requires f in SourceFiles(tree, walk, fs)
    ensures tree.root + ["src"] <= f.path && HasRustExtension(f.path)
    ensures f.path in fs && f.code == NormalizeLineEndings(fs[f.path])
  {
    SourceFilesMembers(tree, walk, fs, f);
  }

  /** Enumeration is in walk order: the files of a longer walk are those of
      its first part followed by those of the rest. */
  lemma {:induction false} SourceFilesInWalkOrder(tree: SourceTree, first: seq<WalkItem>, rest: seq<WalkItem>, fs: map<Path, string>)
    requires WalkedUnder(tree, first + rest)
    ensures WalkedUnder(tree, first) && WalkedUnder(tree, rest)
    ensures SourceFiles(tree, first + rest, fs) == SourceFiles(tree, first, fs) + SourceFiles(tree, rest, fs)
    decreases |first|
  {
    assert forall k :: 0 <= k < |first| ==> first[k] == (first + rest)[k];
    assert forall k :: 0 <= k < |rest| ==> rest[k] == (first + rest)[|first| + k];
    if first != [] {
      assert (first + rest)[1..] == first[1..] + rest;
      SourceFilesInWalkOrder(tree, first[1..], rest, fs);
    } else {
      assert first + rest == rest;
    }
  }

  /** `rng.gen_range(1..16)`: the draw `d` selects the batch size. */
  function BatchSize(d: nat): (total: nat)
    ensures 1 <= total <= 15
  {
    1 + d % 15
  }

  /** The outcome of sampling: the result, the files drawn (in order) and
      the number of draws consumed. */
  datatype Sampling = Sampling(result: Result<seq<Mutation>, Error>, drawn: seq<SourceFile>, used: nat)

  /** The rounds of `SourceTree::mutation` from draw `next` on, with `acc`
      sampled and `drawn` drawn so far. A round takes one draw to choose a
      file (none when there are no files); a file that fails to parse ends
      the sampling with its error; a file without candidates ends the round;
      otherwise one more draw picks the candidate that shuffle-and-pop
      leaves. Running out of draws ends the sampling with `DrawsExhausted`. */
  function Rounds(files: seq<SourceFile>, parse: string -> Option<SynFile>, draws: seq<nat>,
                  next: nat, total: nat, acc: seq<Mutation>, drawn: seq<SourceFile>): (o: Sampling)
    requires next <= |draws|
    ensures next <= o.used <= |draws|
    ensures o.result == Err(DrawsExhausted) ==> o.used == |draws|
    ensures drawn <= o.drawn
    decreases |draws| - next
  {
    if |acc| >= total then Sampling(Ok(acc), drawn, next)
    else if next == |draws| then Sampling(Err(DrawsExhausted), drawn, next)
    else if files == [] then Rounds(files, parse, draws, next + 1, total, acc, drawn)
    else
      var sf := files[draws[next] % |files|];
      if parse(sf.code).None? then Sampling(Err(ParseError(sf.path)), drawn + [sf], next + 1)
      else
        var candidates := FileMutations(sf, parse(sf.code).value);
        if candidates == [] then Rounds(files, parse, draws, next + 1, total, acc, drawn + [sf])
        else if next + 1 == |draws| then Sampling(Err(DrawsExhausted), drawn + [sf], next + 1)
        else Rounds(files, parse, draws, next + 2, total,
                    acc + [candidates[draws[next + 1] % |candidates|]], drawn + [sf])
  }

  /** `SourceTree::mutation` on the enumerated `files`: the first draw gives
      the batch size, the rounds use the rest. */
  function Sample(files: seq<SourceFile>, parse: string -> Option<SynFile>, draws: seq<nat>): Sampling
  {
    if |draws| == 0 then Sampling(Err(DrawsExhausted), [], 0)
    else Rounds(files, parse, draws, 1, BatchSize(draws[0]), [], [])
  }

  /** Every file of `drawn` is one of `files`. */
  predicate DrawnFrom(drawn: seq<SourceFile>, files: seq<SourceFile>)
  {
    forall sf :: sf in drawn ==> sf in files
  }

  /** Every file of `drawn` parses. */
  predicate AllParse(drawn: seq<SourceFile>, parse: string -> Option<SynFile>)
  {
    forall sf :: sf in drawn ==> parse(sf.code).Some?
  }

  /** Every file drawn is an enumerated file, and every file drawn before
      the last one parsed. */
  lemma {:induction false} RoundsDrawFromFiles(files: seq<SourceFile>, parse: string -> Option<SynFile>, draws: seq<nat>,
                                               next: nat, total: nat, acc: seq<Mutation>, drawn: seq<SourceFile>)
    requires next <= |draws|
    requires DrawnFrom(drawn, files) && AllParse(drawn, parse)
    ensures var o := Rounds(files, parse, draws, next, total, acc, drawn);
            DrawnFrom(o.drawn, files) && (|o.drawn| > 0 ==> AllParse(o.drawn[..|o.drawn| - 1], parse))
    decreases |draws| - next
  {
    if |acc| >= total || next == |draws| {
      assert |drawn| > 0 ==> drawn[..|drawn| - 1] <= drawn;
    } else if files == [] {
      RoundsDrawFromFiles(files, parse, draws, next + 1, total, acc, drawn);
    } else {
      var sf := files[draws[next] % |files|];
      var drawn' := drawn + [sf];
      assert DrawnFrom(drawn', files);
      if parse(sf.code).None? {
        assert drawn'[..|drawn'| - 1] == drawn;
      } else {
        assert AllParse(drawn', parse);
        var candidates := FileMutations(sf, parse(sf.code).value);
        if candidates == [] {
          RoundsDrawFromFiles(files, parse, draws, next + 1, total, acc, drawn');
        } else if next + 1 < |draws| {
          RoundsDrawFromFiles(files, parse, draws, next + 2, total,
                              acc + [candidates[draws[next + 1] % |candidates|]], drawn');
        }
      }
    }
  }

  /** The sampling ends with a parse error exactly when the last file drawn
      fails to parse, and then with that file's error: a parse failure in
      any drawn file aborts. Any other error is `DrawsExhausted`. */
  lemma {:induction false} RoundsAbortOnParseError(files: seq<SourceFile>, parse: string -> Option<SynFile>, draws: seq<nat>,
                                                   next: nat, total: nat, acc: seq<Mutation>, drawn: seq<SourceFile>)
    requires next <= |draws|
    requires forall i :: 0 <= i < |drawn| ==> parse(drawn[i].code).Some?
    ensures var o := Rounds(files, parse, draws, next, total, acc, drawn);
            (o.result.Err? && o.result.error.ParseError? <==>
               |o.drawn| > 0 && parse(o.drawn[|o.drawn| - 1].code).None?)
            && (o.result.Err? && o.result.error.ParseError? ==>
                  |o.drawn| > 0 && o.result.error == ParseError(o.drawn[|o.drawn| - 1].path))
            && (o.result.Err? ==> o.result.error == DrawsExhausted || o.result.error.ParseError?)
    decreases |draws| - next
  {
    if |acc| >= total || next == |draws| {
    } else if files == [] {
      RoundsAbortOnParseError(files, parse, draws, next + 1, total, acc, drawn);
    } else {
      var sf := files[draws[next] % |files|];
      if parse(sf.code).Some? {
        var candidates := FileMutations(sf, parse(sf.code).value);
        if candidates == [] {
          RoundsAbortOnParseError(files, parse, draws, next + 1, total, acc, drawn + [sf]);
        } else if next + 1 < |draws| {
          RoundsAbortOnParseError(files, parse, draws, next + 2, total,
               acc + [candidates[draws[next + 1] % |candidates|]], drawn + [sf]);
        }
      }
    }
  }

  /** A successful sampling holds exactly `total` mutations, each a
      candidate of a file drawn that parses. */
  lemma {:induction false} RoundsOkAreCandidates(files: seq<SourceFile>, parse: string -> Option<SynFile>, draws: seq<nat>,
                                                 next: nat, total: nat, acc: seq<Mutation>, drawn: seq<SourceFile>)
    requires next <= |draws| && |acc| <= total
    requires forall m :: m in acc ==> exists sf :: sf in drawn && IsCandidateOf(m, sf, parse)
    ensures var o := Rounds(files, parse, draws, next, total, acc, drawn);
            o.result.Ok? ==>
              (|o.result.value| == total
               && forall m :: m in o.result.value ==> exists sf :: sf in o.drawn && IsCandidateOf(m, sf, parse))
    decreases |draws| - next
  {
    if |acc| >= total || next == |draws| {
    } else if files == [] {
      RoundsOkAreCandidates(files, parse, draws, next + 1, total, acc, drawn);
    } else {
      var sf := files[draws[next] % |files|];
      if parse(sf.code).Some? {
        var candidates := FileMutations(sf, parse(sf.code).value);
        if candidates == [] {
          RoundsOkAreCandidates(files, parse, draws, next + 1, total, acc, drawn + [sf]);
        } else if next + 1 < |draws| {
          var m := candidates[draws[next + 1] % |candidates|];
          assert IsCandidateOf(m, sf, parse);
          RoundsOkAreCandidates(files, parse, draws, next + 2, total, acc + [m], drawn + [sf]);
        }
      }
    }
  }

  /** When every file parses and has candidates, each round adds one
      mutation for two draws, so enough draws make the sampling succeed. */
  lemma {:induction false} RoundsSucceed(files: seq<SourceFile>, parse: string -> Option<SynFile>, draws: seq<nat>,
                                         next: nat, total: nat, acc: seq<Mutation>, drawn: seq<SourceFile>)
    requires next <= |draws| && |acc| <= total
    requires files != []
    requires forall sf :: sf in files ==> parse(sf.code).Some? && FileMutations(sf, parse(sf.code).value) != []
    requires |draws| >= next + 2 * (total - |acc|)
    ensures Rounds(files, parse, draws, next, total, acc, drawn).result.Ok?
    decreases |draws| - next
  {
    if |acc| < total {
      var sf := files[draws[next] % |files|];
      var candidates := FileMutations(sf, parse(sf.code).value);
      RoundsSucceed(files, parse, draws, next + 2, total,
                    acc + [candidates[draws[next + 1] % |candidates|]], drawn + [sf]);
    }
  }

  /** What `SourceTree::mutation` promises, stated of the sampling. */
  lemma SampleOutcome(files: seq<SourceFile>, parse: string -> Option<SynFile>, draws: seq<nat>)
    ensures var o := Sample(files, parse, draws);
            o.used <= |draws|
            && (o.result == Err(DrawsExhausted) ==> o.used == |draws|)
            && (o.result.Ok? ==> |draws| > 0 && |o.result.value| == BatchSize(draws[0]))
            && (o.result.Ok? ==> forall m :: m in o.result.value ==>
                  exists sf :: sf in o.drawn && IsCandidateOf(m, sf, parse))
            && DrawnFrom(o.drawn, files)
            && (|o.drawn| > 0 ==> AllParse(o.drawn[..|o.drawn| - 1], parse))
            && (o.result.Err? && o.result.error.ParseError? <==>
                  |o.drawn| > 0 && parse(o.drawn[|o.drawn| - 1].code).None?)
            && (o.result.Err? && o.result.error.ParseError? ==>
                  |o.drawn| > 0 && o.result.error == ParseError(o.drawn[|o.drawn| - 1].path))
            && (o.result.Err? ==> o.result.error == DrawsExhausted || o.result.error.ParseError?)
  {
    if |draws| > 0 {
      RoundsDrawFromFiles(files, parse, draws, 1, BatchSize(draws[0]), [], []);
      RoundsAbortOnParseError(files, parse, draws, 1, BatchSize(draws[0]), [], []);
      RoundsOkAreCandidates(files, parse, draws, 1, BatchSize(draws[0]), [], []);
    }
  }

  /** With parsing files that all have candidates and at least two draws per
      mutation after the first, sampling succeeds. */
  lemma SampleSucceeds(files: seq<SourceFile>, parse: string -> Option<SynFile>, draws: seq<nat>)
    requires |draws| > 0 && files != []
    requires forall sf :: sf in files ==> parse(sf.code).Some? && FileMutations(sf, parse(sf.code).value) != []
    requires |draws| >= 1 + 2 * BatchSize(draws[0])
    ensures Sample(files, parse, draws).result.Ok?
  {
    RoundsSucceed(files, parse, draws, 1, BatchSize(draws[0]), [], []);
  }

  /** The first file drawn is the one the second draw selects; if it fails to
      parse, the sampling ends with its error. */
  lemma FirstDrawnFailureAborts(files: seq<SourceFile>, parse: string -> Option<SynFile>, draws: seq<nat>)
    requires |draws| >= 2 && files != []
    requires parse(files[draws[1] % |files|].code).None?
    ensures Sample(files, parse, draws)
         == Sampling(Err(ParseError(files[draws[1] % |files|].path)), [files[draws[1] % |files|]], 2)
  {
  }

  /** `SourceTree::mutation`: draws a batch size, then repeatedly draws a
      source file (enumerating the tree afresh each round) and, when it has
      candidates, one of them, until the batch is full. Each random choice
      consumes one of `draws`; when they run out the result is
      `DrawsExhausted`, where the source would keep looping. `drawn` lists
      the files drawn, in order, and `used` counts the draws consumed. */
  method SampleBatch(tree: SourceTree, walk: seq<WalkItem>, fs: map<Path, string>,
                     parse: string -> Option<SynFile>, draws: seq<nat>)
    returns (r: Result<seq<Mutation>, Error>, ghost drawn: seq<SourceFile>, ghost used: nat)
    requires WalkedUnder(tree, walk)
    ensures r == Sample(SourceFiles(tree, walk, fs), parse, draws).result
    ensures Sampling(r, drawn, used) == Sample(SourceFiles(tree, walk, fs), parse, draws)
  {
    ghost var files0 := SourceFiles(tree, walk, fs);
    drawn := [];
    if |draws| == 0 {
      return Err(DrawsExhausted), drawn, 0;
    }
    var total := BatchSize(draws[0]);
    var mutations: seq<Mutation> := [];
    var next := 1;
    while |mutations| < total
      invariant 1 <= next <= |draws|
      invariant Rounds(files0, parse, draws, next, total, mutations, drawn) == Sample(files0, parse, draws)
      decreases |draws| - next
    {
      if next == |draws| {
        return Err(DrawsExhausted), drawn, next;
      }
      var files := SourceFiles(tree, walk, fs);
      var pick := draws[next];
      next := next + 1;
      if |files| > 0 {
        var sf := files[pick % |files|];
        drawn := drawn + [sf];
        var possible := Discover(sf, parse);
        if possible.Err? {
          return Err(possible.error), drawn, next;
        }
        var candidates := possible.value;
        if |candidates| == 0 {
          continue;
        }
        if next == |draws| {
          return Err(DrawsExhausted), drawn, next;
        }
        var popped := candidates[draws[next] % |candidates|];
        next := next + 1;
        mutations := mutations + [popped];
      }
    }
    return Ok(mutations), drawn, next;
  }
}

=== FILE: visitor.dfy ===
/** Discovery of candidate mutations by walking the parsed syntax tree
    (src/visitor.rs). The parser's tree is modelled by the few node kinds
    the visitor reacts to. */
module Visitors {
  import opened Editor
  import opened Source
  import opened Mutations

  /** `syn::Visibility` (syn 1): `Public` is `pub`, `Crate` the bare `crate`
      keyword, `Restricted` every `pub(...)` form, `Inherited` no keyword. */
  datatype Visibility =
    | Public(pubToken: ProcSpan)
    | Crate(crateToken: ProcSpan)
    | Restricted(pubToken: ProcSpan, path: seq<string>)
    | Inherited

  datatype Field = Field(vis: Visibility)

  /** `syn::Fields`: braced named fields, parenthesised tuple fields, or none. */
  datatype Fields = Named(named: seq<Field>) | Unnamed(unnamed: seq<Field>) | Unit

  datatype Variant = Variant(fields: Fields)

  datatype ItemStruct = ItemStruct(vis: Visibility, fields: Fields)

  datatype ItemFn = ItemFn(vis: Visibility)

  datatype ItemEnum = ItemEnum(vis: Visibility, variants: seq<Variant>)

  /** `syn::ItemUnion`: a union's fields are always named. */
  datatype ItemUnion = ItemUnion(vis: Visibility, fields: seq<Field>)

  /** `syn::Item`; `Other` is an item of any other kind, with the items that
      syn's default traversal reaches inside it (an inline module's items,
      items declared in an impl method's body), in order. */
  datatype Item =
    | Struct(itemStruct: ItemStruct)
    | Fn(itemFn: ItemFn)
    | Enum(itemEnum: ItemEnum)
    | Union(itemUnion: ItemUnion)
    | Other(nested: seq<Item>)

  /** `syn::File`. */
  datatype SynFile = SynFile(items: seq<Item>)

  /** One mutation per operation, all on the same file and span, in the order of `ops`. */
  function MutationsAt(sf: SourceFile, ops: seq<MutationOp>, span: Span): seq<Mutation>
  {
    seq(|ops|, i requires 0 <= i < |ops| => Mutation.New(sf, ops[i], span))
  }

  /** `Visitor::ops_for_visibility`. */
  function OpsForVisibility(sf: SourceFile, vis: Visibility): (ms: seq<Mutation>)
    ensures forall m :: m in ms ==> m.sourceFile == sf
    ensures !vis.Restricted? ==> forall m :: m in ms ==> TargetReach(m.op) < Reach(vis)
  {
    match vis
    case Public(pubToken) =>
      MutationsAt(sf, [ToVisCrate, ToVisInherited, ToVisSelf, ToVisSuper], FromProcSpan(pubToken))
    case Crate(crateToken) =>
      MutationsAt(sf, [ToVisSelf, ToVisSuper, ToVisInherited], FromProcSpan(crateToken))
    case Restricted(_, _) => []
    case Inherited => []
  }

  /** The operations of a list of mutations, in order. */
  function OpsOf(ms: seq<Mutation>): seq<MutationOp>
  {
    seq(|ms|, i requires 0 <= i < |ms| => ms[i].op)
  }

  /** `pub` yields exactly four mutations, in this order. */
  lemma PublicCandidates(sf: SourceFile, t: ProcSpan)
    ensures OpsOf(OpsForVisibility(sf, Public(t))) == [ToVisCrate, ToVisInherited, ToVisSelf, ToVisSuper]
  {
  }

  /** `crate` yields exactly three mutations, in this order, and never `ToVisCrate`. */
  lemma CrateCandidates(sf: SourceFile, t: ProcSpan)
    ensures OpsOf(OpsForVisibility(sf, Crate(t))) == [ToVisSelf, ToVisSuper, ToVisInherited]
    ensures ToVisCrate !in OpsOf(OpsForVisibility(sf, Crate(t)))
  {
  }

  /** Restricted and inherited visibilities yield nothing. */
  lemma NoCandidates(sf: SourceFile, vis: Visibility)
    requires vis.Restricted? || vis.Inherited?
    ensures OpsForVisibility(sf, vis) == []
  {
  }

  /** All mutations for one visibility belong to the visitor's file and are
      anchored to the span of the visibility keyword. */
  lemma CandidatesAnchored(sf: SourceFile, vis: Visibility)
    ensures forall m :: m in OpsForVisibility(sf, vis) ==>
      m.sourceFile == sf
      && (vis.Public? ==> m.span == FromProcSpan(vis.pubToken))
      && (vis.Crate? ==> m.span == FromProcSpan(vis.crateToken))
  {
  }

  /** How widely a visibility exposes an item: `pub`, crate, parent module,
      own module. */
  function Reach(vis: Visibility): nat
    requires !vis.Restricted?
  {
    match vis
    case Public(_) => 3
    case Crate(_) => 2
    case Inherited => 0
  }

  /** How widely the visibility an operation writes exposes the item
      (`pub(self)` and inherited both mean the own module). */
  function TargetReach(op: MutationOp): nat
  {
    match op
    case ToVisCrate => 2
    case ToVisSuper => 1
    case ToVisSelf => 0
    case ToVisInherited => 0
  }

  /** The candidates are exactly the operations that strictly narrow the
      declared visibility. */
  lemma CandidatesNarrow(sf: SourceFile, vis: Visibility, op: MutationOp)
    requires !vis.Restricted?
    ensures op in OpsOf(OpsForVisibility(sf, vis)) <==> TargetReach(op) < Reach(vis)
  {
    var ops := OpsOf(OpsForVisibility(sf, vis));
    match vis
    case Public(t) =>
      assert ops == [ToVisCrate, ToVisInherited, ToVisSelf, ToVisSuper];
    case Crate(t) =>
      assert ops == [ToVisSelf, ToVisSuper, ToVisInherited];
    case Inherited =>
  }

  // What each visit contributes.

  /** The mutations of a list of fields, each through `Visitor::visit_field`, in order. */
  function FieldListMutations(sf: SourceFile, fields: seq<Field>): seq<Mutation>
    decreases |fields|
  {
    if fields == [] then []
    else FieldListMutations(sf, fields[..|fields| - 1]) + OpsForVisibility(sf, fields[|fields| - 1].vis)
  }

  /** What syn's default `visit_fields` collects: named and tuple fields
      alike reach `Visitor::visit_field`. */
  function FieldsMutations(sf: SourceFile, fields: Fields): seq<Mutation>
  {
    match fields
    case Named(named) => FieldListMutations(sf, named)
    case Unnamed(unnamed) => FieldListMutations(sf, unnamed)
    case Unit => []
  }

  /** What `Visitor::visit_item_struct` collects: the struct's own
      visibility first, then its fields. */
  function StructMutations(sf: SourceFile, node: ItemStruct): seq<Mutation>
  {
    OpsForVisibility(sf, node.vis) + FieldsMutations(sf, node.fields)
  }

  /** What one item contributes to the visitor, by syn's dispatch on item kinds.
      An enum contributes only its own visibility: its variants go through
      syn's `visit_variant`, which reaches `Visitor::visit_fields`, which hands
      named fields to syn's own `visit_field`, not to `Visitor::visit_field`. */
  function ItemMutations(sf: SourceFile, item: Item): seq<Mutation>
    decreases item
  {
    match item
    case Struct(node) => StructMutations(sf, node)
    case Fn(node) => OpsForVisibility(sf, node.vis)
    case Enum(node) => OpsForVisibility(sf, node.vis)
    case Union(node) => FieldListMutations(sf, node.fields)
    case Other(nested) => ItemsMutations(sf, nested)
  }

  function ItemsMutations(sf: SourceFile, items: seq<Item>): seq<Mutation>
    decreases items
  {
    if items == [] then []
    else ItemsMutations(sf, items[..|items| - 1]) + ItemMutations(sf, items[|items| - 1])
  }

  /** Everything the visitor collects over a whole file. */
  function FileMutations(sf: SourceFile, file: SynFile): seq<Mutation>
  {
    ItemsMutations(sf, file.items)
  }

  lemma AppendAssoc(a: seq<Mutation>, b: seq<Mutation>, c: seq<Mutation>)
    ensures (a + b) + c == a + (b + c)
  {
  }

  /** Visiting one more field appends that field's mutations. */
  lemma FieldListSnoc(sf: SourceFile, fields: seq<Field>, i: nat)
    requires i < |fields|
    ensures FieldListMutations(sf, fields[..i + 1]) == FieldListMutations(sf, fields[..i]) + OpsForVisibility(sf, fields[i].vis)
  {
    assert fields[..i + 1][..i] == fields[..i];
  }

  /** Visiting one more item appends that item's mutations. */
  lemma ItemsMutationsSnoc(sf: SourceFile, items: seq<Item>, i: nat)
    requires i < |items|
    ensures ItemsMutations(sf, items[..i + 1]) == ItemsMutations(sf, items[..i]) + ItemMutations(sf, items[i])
  {
    assert items[..i + 1][..i] == items[..i];
  }

  /** Every mutation discovered in an item tree belongs to the visited file. */
  lemma {:induction false} ItemMutationsBelongToFile(sf: SourceFile, item: Item)
    ensures forall m :: m in ItemMutations(sf, item) ==> m.sourceFile == sf
    decreases item
  {
    match item
    case Struct(node) =>
      CandidatesAnchored(sf, node.vis);
      FieldsBelongToFile(sf, node.fields);
    case Fn(node) =>
      CandidatesAnchored(sf, node.vis);
    case Enum(node) =>
      CandidatesAnchored(sf, node.vis);
    case Union(node) =>
      FieldListBelongsToFile(sf, node.fields);
    case Other(nested) =>
      ItemsMutationsBelongToFile(sf, nested);
  }

  lemma {:induction false} ItemsMutationsBelongToFile(sf: SourceFile, items: seq<Item>)
    ensures forall m :: m in ItemsMutations(sf, items) ==> m.sourceFile == sf
    decreases items
  {
    if items != [] {
      ItemsMutationsBelongToFile(sf, items[..|items| - 1]);
      ItemMutationsBelongToFile(sf, items[|items| - 1]);
    }
  }

  lemma {:induction false} FieldListBelongsToFile(sf: SourceFile, fields: seq<Field>)
    ensures forall m :: m in FieldListMutations(sf, fields) ==> m.sourceFile == sf
    decreases |fields|
  {
    if fields != [] {
      FieldListBelongsToFile(sf, fields[..|fields| - 1]);
      CandidatesAnchored(sf, fields[|fields| - 1].vis);
    }
  }

  lemma FieldsBelongToFile(sf: SourceFile, fields: Fields)
    ensures forall m :: m in FieldsMutations(sf, fields) ==> m.sourceFile == sf
  {
    match fields
    case Named(named) => FieldListBelongsToFile(sf, named);
    case Unnamed(unnamed) => FieldListBelongsToFile(sf, unnamed);
    case Unit =>
  }

  /** The visitor: accumulates in `mutations` the places of `sourceFile` that could be mutated. */
  class Visitor {
    var mutations: seq<Mutation>
    const sourceFile: SourceFile

    /** `Visitor::new`: a fresh visitor has found nothing yet. */
    constructor (sourceFile: SourceFile)
      ensures this.sourceFile == sourceFile && mutations == []
    {
      this.sourceFile := sourceFile;
      mutations := [];
    }

    /** `visit_item_struct`: the struct's visibility, then syn's default
        `visit_fields` over its fields. */
    method VisitItemStruct(node: ItemStruct)
      modifies this
      ensures mutations == old(mutations) + StructMutations(sourceFile, node)
    {
      mutations := mutations + OpsForVisibility(sourceFile, node.vis);
      DefaultVisitFields(node.fields);
    }

    /** `visit_item_fn`: the fn's visibility only; its body is not visited. */
    method VisitItemFn(node: ItemFn)
      modifies this
      ensures mutations == old(mutations) + OpsForVisibility(sourceFile, node.vis)
    {
      mutations := mutations + OpsForVisibility(sourceFile, node.vis);
    }

    /** `visit_item_enum`: the enum's visibility, then syn's default
        `visit_variant` on each variant, in declaration order. */
    method VisitItemEnum(node: ItemEnum)
      modifies this
      ensures mutations == old(mutations) + OpsForVisibility(sourceFile, node.vis)
    {
      mutations := mutations + OpsForVisibility(sourceFile, node.vis);
      for i := 0 to |node.variants|
        invariant mutations == old(mutations) + OpsForVisibility(sourceFile, node.vis)
      {
        DefaultVisitVariant(node.variants[i]);
      }
    }

    /** `visit_variant`: syn's default `visit_fields` over the variant's
        fields. Nothing in the visitor calls it: `visit_item_enum` calls
        syn's `visit_variant` instead. */
    method VisitVariant(node: Variant)
      modifies this
      ensures mutations == old(mutations) + FieldsMutations(sourceFile, node.fields)
    {
      DefaultVisitFields(node.fields);
    }

    /** `visit_fields`: hands each named field, in order, to syn's own
        `visit_field`, which collects nothing; tuple and unit fields are skipped. */
    method VisitFields(node: Fields)
      ensures mutations == old(mutations)
    {
      if node.Named? {
        for i := 0 to |node.named| {
          DefaultVisitField(node.named[i]);
        }
      }
    }

    /** `visit_field`: the field's visibility. */
    method VisitField(node: Field)
      modifies this
      ensures mutations == old(mutations) + OpsForVisibility(sourceFile, node.vis)
    {
      mutations := mutations + OpsForVisibility(sourceFile, node.vis);
    }

    // syn's default traversal, as far as it reaches the methods above.

    /** `syn::visit::visit_field`: visits attributes, visibility, name and
        type, none of which reaches this visitor's overrides. */
    method DefaultVisitField(node: Field)
      ensures mutations == old(mutations)
    {
    }

    /** `syn::visit::visit_variant`: calls the visitor's `visit_fields`. */
    method DefaultVisitVariant(node: Variant)
      ensures mutations == old(mutations)
    {
      VisitFields(node.fields);
    }

    /** `syn::visit::visit_fields`: named and tuple fields alike, in order,
        through the visitor's `visit_field`. */
    method DefaultVisitFields(node: Fields)
      modifies this
      ensures mutations == old(mutations) + FieldsMutations(sourceFile, node)
    {
      match node
      case Named(named) => DefaultVisitFieldList(named);
      case Unnamed(unnamed) => DefaultVisitFieldList(unnamed);
      case Unit =>
    }

    /** The loop of `visit_fields_named` / `visit_fields_unnamed`. */
    method DefaultVisitFieldList(fields: seq<Field>)
      modifies this
      ensures mutations == old(mutations) + FieldListMutations(sourceFile, fields)
    {
      for i := 0 to |fields|
        invariant mutations == old(mutations) + FieldListMutations(sourceFile, fields[..i])
      {
        FieldListSnoc(sourceFile, fields, i);
        AppendAssoc(old(mutations), FieldListMutations(sourceFile, fields[..i]), OpsForVisibility(sourceFile, fields[i].vis));
        VisitField(fields[i]);
      }
      assert fields[..|fields|] == fields;
    }

    /** `syn::visit::visit_item_union`: the union's own visibility goes to
        syn's `visit_visibility`, which the visitor does not override; its
        fields go, in order, to the visitor's `visit_field`. */
    method DefaultVisitItemUnion(node: ItemUnion)
      modifies this
      ensures mutations == old(mutations) + FieldListMutations(sourceFile, node.fields)
    {
      DefaultVisitFieldList(node.fields);
    }

    /** `syn::visit::visit_item`: dispatch on the item's kind. */
    method VisitItem(item: Item)
      modifies this
      ensures mutations == old(mutations) + ItemMutations(sourceFile, item)
      decreases item
    {
      match item
      case Struct(node) => VisitItemStruct(node);
      case Fn(node) => VisitItemFn(node);
      case Enum(node) => VisitItemEnum(node);
      case Union(node) => DefaultVisitItemUnion(node);
      case Other(nested) => VisitItems(nested);
    }

    method VisitItems(items: seq<Item>)
      modifies this
      ensures mutations == old(mutations) + ItemsMutations(sourceFile, items)
      decreases items
    {
      for i := 0 to |items|
        invariant mutations == old(mutations) + ItemsMutations(sourceFile, items[..i])
      {
        ItemsMutationsSnoc(sourceFile, items, i);
        AppendAssoc(old(mutations), ItemsMutations(sourceFile, items[..i]), ItemMutations(sourceFile, items[i]));
        VisitItem(items[i]);
      }
      assert items[..|items|] == items;
    }

    /** `syn::visit::visit_file`: every item of the file, in order. */
    method VisitFile(file: SynFile)
      modifies this
      ensures mutations == old(mutations) + FileMutations(sourceFile, file)
    {
      VisitItems(file.items);
    }
  }

  /** `ToVisInherited` on a `pub` at the start of a one-line file: the span
      the tokenizer reports for the keyword also covers the following char,
      which the replacement `" "` stands in for; everything after is kept. */
  lemma LeadingPubRemoved(code: string, sf: SourceFile, t: ProcSpan)
    requires '\n' !in code && |code| >= 4
    requires sf.code == code && t == ProcSpan(ProcLineColumn(1, 0), ProcLineColumn(1, 3))
    ensures Mutation(sf, FromProcSpan(t), ToVisInherited).Mutate() == " " + code[4..]
  {
    TokenSpanCoversNextChar(code, 0, 3, " ");
  }

  /** A `pub struct` with one `pub` named field yields four mutations
      anchored to the struct's `pub` and then four anchored to the field's;
      the second is the struct's `ToVisInherited`. */
  lemma PublicStructWithPublicField(sf: SourceFile, structPub: ProcSpan, fieldPub: ProcSpan)
    ensures var file := SynFile([Struct(ItemStruct(Public(structPub), Named([Field(Public(fieldPub))])))]);
            var ms := FileMutations(sf, file);
            |ms| == 8
            && (forall i :: 0 <= i < 4 ==> ms[i].span == FromProcSpan(structPub))
            && (forall i :: 4 <= i < 8 ==> ms[i].span == FromProcSpan(fieldPub))
            && ms[1] == Mutation(sf, FromProcSpan(structPub), ToVisInherited)
  {
    var field := Field(Public(fieldPub));
    var node := ItemStruct(Public(structPub), Named([field]));
    assert [Struct(node)][..0] == [];
    assert [field][..0] == [];
    assert ItemsMutations(sf, [Struct(node)]) == ItemsMutations(sf, []) + ItemMutations(sf, Struct(node));
    assert FieldListMutations(sf, [field]) == FieldListMutations(sf, []) + OpsForVisibility(sf, field.vis);
  }

  /** `pub union U { pub a: u32 }`: the union's own `pub` yields nothing, the
      field's `pub` its four candidates, all anchored to the field's keyword. */
  lemma PublicUnionField(sf: SourceFile, unionPub: ProcSpan, fieldPub: ProcSpan)
    ensures var ms := ItemMutations(sf, Union(ItemUnion(Public(unionPub), [Field(Public(fieldPub))])));
            OpsOf(ms) == [ToVisCrate, ToVisInherited, ToVisSelf, ToVisSuper]
            && forall m :: m in ms ==> m.span == FromProcSpan(fieldPub)
  {
    var field := Field(Public(fieldPub));
    assert [field][..0] == [];
    assert FieldListMutations(sf, [field]) == FieldListMutations(sf, []) + OpsForVisibility(sf, field.vis);
    PublicCandidates(sf, fieldPub);
    CandidatesAnchored(sf, field.vis);
  }

  /** A one-line `pub struct ...` whose keyword starts the file, with one
      `pub` named field: removing the struct's `pub` (with the space its
      span also covers, which the replacement `" "` puts back) keeps every
      other char, the field's `pub` included; for example
      `pub struct Foo { pub x: i32 }` becomes ` struct Foo { pub x: i32 }`. */
  lemma PublicStructScenario(sf: SourceFile, rest: string, structPub: ProcSpan, fieldPub: ProcSpan)
    requires sf.code == "pub " + rest && '\n' !in rest
    requires structPub == ProcSpan(ProcLineColumn(1, 0), ProcLineColumn(1, 3))
    ensures var file := SynFile([Struct(ItemStruct(Public(structPub), Named([Field(Public(fieldPub))])))]);
            var ms := FileMutations(sf, file);
            |ms| == 8 && ms[1].op == ToVisInherited && ms[1].Mutate() == " " + rest
  {
    PublicStructWithPublicField(sf, structPub, fieldPub);
    var ms := FileMutations(sf, SynFile([Struct(ItemStruct(Public(structPub), Named([Field(Public(fieldPub))])))]));
    assert ms[1] == Mutation(sf, FromProcSpan(structPub), ToVisInherited);
    assert '\n' !in sf.code by {
      forall i | 0 <= i < |sf.code| ensures sf.code[i] != '\n' {
        if i >= 4 { assert sf.code[i] == rest[i - 4]; }
      }
    }
    assert sf.code[4..] == rest;
    LeadingPubRemoved(sf.code, sf, structPub);
  }
}

=== FILE: wrappers.dfy ===
/** Failure-compatible result types shared by the other modules. */
module Wrappers {

  datatype Option<+T> = None | Some(value: T)

  /** Rust's `Result<T, E>`. */
  datatype Result<+T, +E> = Ok(value: T) | Err(error: E)
}
